=== FILE: README.md ===
# httplib instrumentation of the Sentry Python SDK, modelled in Dafny

The stdlib integration of the Sentry Python SDK (`sentry_sdk/integrations/stdlib.py`)
wraps two methods of `http.client.HTTPConnection`:

- `putrequest` runs the real method, then (when the integration is installed on the current
  hub) computes the URL to record, stores a fresh data dict `{url, method}` and a span from
  `hub.start_span` on the connection, and injects the hub's trace-propagation headers;
- `getresponse` runs the real method, then records `status_code` and `reason` into the data
  dict if `status_code` is not there yet, tags, fills and finishes the stored span when there is
  one, and adds an `http`/`httplib` breadcrumb.

The model makes both wrappers pure functions. A call takes the connection (its address
attributes and the two attributes the wrappers stash, each of which may be absent), what the
hub offers during that call (`enabled`, the propagation headers, what `start_span` returns) and
what the real method returned or raised. It yields a `Call`: the value returned or the
exception raised, the connection afterwards, and the events handed to the hub, its spans and the
header buffer (`StartSpan`, `PutHeader`, `SetTag`, `SetData`, `Finish`, `Breadcrumb`). A
trace of such calls on one connection carries the connection from call to call and appends the events to
one log.

Files:

- `outcome.dfy` — `Option`, `Result`, and `Attr` (a Python attribute that may be unset).
- `decimal.dfy` — `str()` of an integer, with a parser proving the rendering loses nothing.
- `datadict.dfy` — a Python dict as an insertion-ordered list of unique keys; `d[k] = v` updates
  in place or appends.
- `url.dfy` — the recorded URL.
- `stdlib.dfy` — the connection, hub, events, and the two wrappers.
- `steplog.dfy` — folding a state through a sequence of steps while appending their outputs.
- `trace.dfy` — sequences of calls on one connection and the properties across calls.

Behaviours of the code that the model keeps as written:

- An instrumented `getresponse` on a connection with no `_sentrysdk_span` attribute raises
  `AttributeError` at line 68, which reads the attribute with no default. This happens on a
  connection no instrumented `putrequest` has touched, when its `putrequest` ran while the
  integration was off or before it was installed.
  The model returns `Err(AttributeError("_sentrysdk_span"))` (`Trace.UninstrumentedGetFails`).
  Any `status_code`/`reason` write into a stored dict made before that read is kept.
- A `putrequest` made while the integration is off returns at line 29 without touching the
  connection. On a reused connection the previous request's dict and span therefore stay in
  place, and the next instrumented `getresponse` does not raise: it finishes the previous span
  again and reports the previous request's dict, whose `url`, `method` and `status_code` line 64
  leaves as they were; only the tag at line 70 takes the new status (`Trace.StaleStateReported`).
- The port segment and `url` are concatenated with no separator (lines 37-42). `url` normally
  starts with `/`, but `*` or `x` would be glued to the host.
- Both attributes stay set after `finish`, so a repeated `getresponse` finishes the same span
  again (`Trace.RepeatedGetFinishesAgain`), and the first status stays recorded
  (`Trace.FirstResponseWins`).
- `getattr(self, "_sentrysdk_data_dict", None) or {}` (line 62) also replaces a stored but empty
  dict by a fresh local dict that is never written back (`Stdlib.StoredDataInUse`). A completed
  instrumented `putrequest` always leaves `url` and `method` in the dict. An empty dict stays
  behind only when `start_span` or `putheader` raises after line 44 stored it, which the model
  leaves out (see "## Left out"), or on hand-made connections.

`Trace.RunAppend` and `Trace.LogAppendOnly` are properties of the trace construction itself:
they hold for any step function, not only for the two wrappers.

## Model

| member | source | states |
|---|---|---|
| Decimal.IntToString | sentry_sdk/integrations/stdlib.py:40 | `"%s" % port` renders a non-empty string with a minus sign exactly for negative ports, followed by decimal digits with no leading zero (except `0` itself) that read back as the port's absolute value |
| Decimal.NatToString | sentry_sdk/integrations/stdlib.py:40 | the decimal digits of a natural number, with no leading zero except for 0 itself |
| Decimal.ParseNatToString | sentry_sdk/integrations/stdlib.py:40 | reading the rendered digits back yields the number |
| Decimal.NatToStringInjective | sentry_sdk/integrations/stdlib.py:40 | two natural numbers with the same rendering are equal |
| Decimal.IntToStringInjective | sentry_sdk/integrations/stdlib.py:40 | corollary of `IntToString`'s read-back clauses: two ports render the same iff they are equal |
| Url.StartsWithIsPrefix | sentry_sdk/integrations/stdlib.py:36 | the character-wise `startswith` test used for line 36 is exactly the sequence-prefix test |
| Url.CanonicalUrl | sentry_sdk/integrations/stdlib.py:35-42 | the recorded URL is always absolute, and an absolute `url` is recorded exactly as given whatever host and port |
| Url.CanonicalUrlScheme | sentry_sdk/integrations/stdlib.py:37-38 | a relative `url` is recorded with scheme `https://` iff the default port is 443, and `http://` iff it is not |
| Url.CanonicalUrlLayout | sentry_sdk/integrations/stdlib.py:37-42 | after the scheme of a relative `url` come the host, then `:` and the decimal port iff the port is not the default one, then `url`, with nothing in between |
| Url.PortSegmentInjective | sentry_sdk/integrations/stdlib.py:40 | the port segment (empty for the default port, else `:` and the decimal port) determines the port |
| Url.CanonicalUrlIdempotent | sentry_sdk/integrations/stdlib.py:35-36 | corollary of `CanonicalUrl`'s two clauses: recording a recorded URL again, on any connection, leaves it unchanged |
| Url.CanonicalUrlPortInjective | sentry_sdk/integrations/stdlib.py:40 | for a relative `url`, two ports give the same recorded URL iff they are equal |
| Url.CanonicalUrlExamples | sentry_sdk/integrations/stdlib.py:37-42 | `/a` on example.com gives `https://example.com/a` on port 443 and `https://example.com:8443/a` on port 8443, when the default port is 443 |
| DataDict.Get | sentry_sdk/integrations/stdlib.py:64-66 | the dict read through which the writes at lines 65-66 are stated: it finds a value iff the key is present (the `in` test of line 64), and that value is the one stored under the key |
| DataDict.Set | sentry_sdk/integrations/stdlib.py:65-66 | `d[k] = v` replaces the entry of `k` where it sits, every other entry unchanged, when `k` is present, and appends `(k, v)` when it is not |
| DataDict.SetGet | sentry_sdk/integrations/stdlib.py:65-66 | after `d[k] = v`, `k` maps to `v` and every other key to its earlier value |
| Stdlib.HeaderEvents | sentry_sdk/integrations/stdlib.py:49-50 | exactly one `putheader` per propagation header, in the hub's order |
| Stdlib.DataEvents | sentry_sdk/integrations/stdlib.py:71-72 | exactly one `set_data` per dict entry, in insertion order |
| Stdlib.PutRequest | sentry_sdk/integrations/stdlib.py:25-54 | the real call's value or exception is passed through; on an exception or when disabled nothing is emitted and the connection is untouched; otherwise the data dict becomes exactly `url` then `method`, and the span becomes what `start_span` returned |
| Stdlib.PutRequestEvents | sentry_sdk/integrations/stdlib.py:44-50 | an instrumented `putrequest` emits one `StartSpan("http", "<url> <method>")`, then one `PutHeader` per propagation header in the hub's order, and nothing else |
| Stdlib.RecordStatus | sentry_sdk/integrations/stdlib.py:64-66 | a dict that already holds `status_code` is left as it is; a dict with neither key gets `status_code` then `reason` appended; a dict holding `reason` but not `status_code` gets `reason` overwritten in place and `status_code` appended last |
| Stdlib.RecordStatusFacts | sentry_sdk/integrations/stdlib.py:64-66 | afterwards `status_code` is present; an earlier value is kept; otherwise `status_code` and `reason` are the response's and every other key keeps its value |
| Stdlib.GetResponse | sentry_sdk/integrations/stdlib.py:56-78 | the real call's exception, and the disabled path, pass through with no events and the connection untouched; the call fails iff the real call failed or, enabled, the span attribute was never set, and then with `AttributeError` and no events; a success returns the real response; only the data dict can change, only when a non-empty one is stored, and never once it holds `status_code`; a stored dict in use is stored back as `RecordStatus` of it (its other entries and their order kept, `status_code` and `reason` appended when absent), so it gets the response's status and reason |
| Stdlib.GetResponseBreadcrumb | sentry_sdk/integrations/stdlib.py:75-78 | an instrumented success ends with one `Breadcrumb("http", "httplib")` whose data holds `status_code`, is the stored dict when one is in use (else just status and reason), and whose hint is the response; with a `None` span it is the only event |
| Stdlib.GetResponseSpanEvents | sentry_sdk/integrations/stdlib.py:68-73 | with a span, the events are `SetTag("status_code", <this response's status>)`, one `SetData` per breadcrumb-dict entry in order, one `Finish`, then the breadcrumb |
| Trace.RunKeepsAddress | sentry_sdk/integrations/stdlib.py:31-33 | a trace never changes host, port or default port, and a span attribute once set stays set |
| Trace.DisabledTraceInvisible | sentry_sdk/integrations/stdlib.py:26-29 | with the integration off for every call (both wrappers return right after the real call, lines 26-29 and 57-60), the connection is untouched and nothing is emitted |
| Trace.PutRequestCounts | sentry_sdk/integrations/stdlib.py:44-54 | `putrequest` emits no breadcrumb and finishes no span |
| Trace.GetResponseCounts | sentry_sdk/integrations/stdlib.py:68-77 | an instrumented successful `getresponse` emits exactly one breadcrumb and finishes span `t` once iff `t` is the stored span |
| Trace.BreadcrumbPerResponse | sentry_sdk/integrations/stdlib.py:75-77 | on an instrumented connection with every call enabled and succeeding, there are exactly as many breadcrumbs as `getresponse` calls |
| Trace.StatusCodeKept | sentry_sdk/integrations/stdlib.py:64-66 | once `status_code` is stored, any number of `getresponse` calls leave the connection unchanged |
| Trace.RecordAfterSend | sentry_sdk/integrations/stdlib.py:62-66 | the dict a `putrequest` stored becomes `url, method, status_code, reason` in that order |
| Trace.ReceiveAfterSend | sentry_sdk/integrations/stdlib.py:62-77 | after a `putrequest`, `getresponse` stores the four entries and emits the tag, four `SetData` in order, the finish and the breadcrumb |
| Trace.ExchangeLog | sentry_sdk/integrations/stdlib.py:44-77 | a `putrequest` then a `getresponse`, on any connection, record exactly the four entries and emit exactly: `StartSpan`, the headers, `SetTag`, `SetData` for url, method, status_code and reason, `Finish`, the breadcrumb |
| Trace.FirstResponseWins | sentry_sdk/integrations/stdlib.py:62-66 | after a `putrequest`, the first `getresponse`'s status and reason are the ones stored, whatever `getresponse` calls follow |
| Trace.RepeatedGetFinishesAgain | sentry_sdk/integrations/stdlib.py:68-73 | the span is not cleared: two `getresponse` calls finish it twice and add two breadcrumbs |
| Trace.PipelinedSpanOrphaned | sentry_sdk/integrations/stdlib.py:44-47 | a second `putrequest` before the response overwrites the span: the first is never finished, the second once |
| Trace.UninstrumentedGetFails | sentry_sdk/integrations/stdlib.py:68 | on a connection no instrumented `putrequest` has touched, a `putrequest` with the integration off followed by an instrumented `getresponse` raises `AttributeError`, emits nothing and leaves the connection as it was |
| Trace.StaleStateReported | sentry_sdk/integrations/stdlib.py:26-77 | on a reused connection holding a span and a dict with `status_code`, a `putrequest` with the integration off followed by an instrumented `getresponse` leaves the connection unchanged, finishes the previous span once more and ends with a breadcrumb carrying the previous dict unchanged |

## Left out

- The real `putrequest`/`getresponse` and the socket traffic behind them: the model takes what they
  returned or raised as an input.
- `*args`/`**kwargs` forwarded to the real methods: they only reach the real call.
- `Hub.current` and `get_integration`: reduced to an `enabled` flag given per call.
- Hub internals: span storage, sampling, breadcrumb buffering, how the propagation headers are
  computed. `start_span`, `iter_trace_propagation_headers`, `set_tag`, `set_data`, `finish`,
  `add_breadcrumb` and `putheader` appear only as logged events and inputs.
- Exceptions raised by the hub, by a span or by `putheader` inside the wrappers: that code is
  not part of this model, so each such call is taken to return normally.
- The response object in the breadcrumb hint: an identity, a status and a reason only.
- The installation of the wrappers (lines 80-81), `setup_once`, and the `httplib`/`http.client`
  import fallback (lines 5-8): runtime plumbing.
- Threads and pipelining from several threads on one connection: a trace is sequential.
- Python object identity of the data dict beyond the connection: the breadcrumb gets the dict's
  contents at the time of the call; no later write in these wrappers changes it.

=== FILE: datadict.dfy ===
/** The insertion-ordered string-keyed dictionary the integration stores on a connection. */
module DataDict {
  import opened Outcome

  /** The values the integration writes: url, method and reason are strings, status_code an int. */
  datatype Value = Str(s: string) | Int(i: int)

  /** Key/value pairs in order. */
  type Items = seq<(string, Value)>

  /** No key occurs twice. */
  predicate UniqueKeys(d: Items) {
    forall i, j :: 0 <= i < j < |d| ==> d[i].0 != d[j].0
  }

  /** A Python dict: its items in insertion order, each key once. */
  type Dict = d: Items | UniqueKeys(d) witness []

  predicate HasKey(d: Items, k: string) {
    exists i :: 0 <= i < |d| && d[i].0 == k
  }

  /** The position of the first entry with key `k`. */
  function IndexOf(d: Items, k: string): (r: Option<nat>)
    ensures r.None? <==> !HasKey(d, k)
    ensures r.Some? ==> r.value < |d| && d[r.value].0 == k
    ensures r.Some? ==> forall j :: 0 <= j < r.value ==> d[j].0 != k
  {
    if |d| == 0 then None
    else if d[0].0 == k then Some(0)
    else
      match IndexOf(d[1..], k)
      case None =>
        assert forall i :: 1 <= i < |d| ==> d[i] == d[1..][i - 1];
        None
      case Some(i) => Some(i + 1)
  }

  /** The first entry with key `k` is the one `IndexOf` finds. */
  lemma IndexOfFirst(d: Items, k: string, i: nat)
    requires i < |d| && d[i].0 == k
    requires forall j :: 0 <= j < i ==> d[j].0 != k
    ensures IndexOf(d, k) == Some(i)
  {
    assert HasKey(d, k);
  }

  /** `d.get(k)`. */
  function Get(d: Items, k: string): (r: Option<Value>)
    ensures r.Some? <==> HasKey(d, k)
    ensures r.Some? ==> exists i :: 0 <= i < |d| && d[i] == (k, r.value)
  {
    match IndexOf(d, k)
    case None => None
    case Some(i) => Some(d[i].1)
  }

  /** `d[k] = v`: an existing key keeps its position and takes the new value; a new key goes last. */
  function Set(d: Dict, k: string, v: Value): (r: Dict)
    ensures HasKey(d, k) ==> |r| == |d| && forall i :: 0 <= i < |d| ==> r[i].0 == d[i].0
    ensures HasKey(d, k) ==> forall i :: 0 <= i < |d| ==> r[i] == if d[i].0 == k then (k, v) else d[i]
    ensures !HasKey(d, k) ==> r == d + [(k, v)]
  {
    match IndexOf(d, k)
    case None => d + [(k, v)]
    case Some(i) => d[i := (k, v)]
  }

  /** After `d[k] = v`, `k` maps to `v` and every other key to what it mapped to before. */
  lemma SetGet(d: Dict, k: string, v: Value, k': string)
    ensures Get(Set(d, k, v), k') == if k' == k then Some(v) else Get(d, k')
  {
    var r := Set(d, k, v);
    match IndexOf(d, k)
    case None =>
      if k' == k {
        IndexOfFirst(r, k, |d|);
      } else {
        match IndexOf(d, k')
        case None =>
        case Some(j) => IndexOfFirst(r, k', j);
      }
    case Some(i) =>
      IndexOfFirst(r, k, i);
      if k' != k {
        match IndexOf(d, k')
        case None =>
        case Some(j) => IndexOfFirst(r, k', j);
      }
  }
}

=== FILE: decimal.dfy ===
/** Decimal rendering of integers, as Python's `str(int)` / `"%s" % int` produce it. */
module Decimal {

  predicate IsDigit(c: char) {
    '0' <= c <= '9'
  }

  predicate AllDigits(s: string) {
    forall i :: 0 <= i < |s| ==> IsDigit(s[i])
  }

  function DigitValue(c: char): (d: nat)
    requires IsDigit(c)
    ensures d < 10
  {
    c as int - '0' as int
  }

  function DigitChar(d: nat): (c: char)
    requires d < 10
    ensures IsDigit(c)
    ensures DigitValue(c) == d
  {
    ('0' as int + d) as char
  }

  /** The shortest decimal digit string of `n`: no sign, no leading zero. */
  function NatToString(n: nat): (s: string)
    ensures |s| >= 1
    ensures AllDigits(s)
    ensures s[0] == '0' <==> n == 0
    ensures n == 0 ==> s == "0"
    decreases n
  {
    if n < 10 then [DigitChar(n)] else NatToString(n / 10) + [DigitChar(n % 10)]
  }

  /** The number a digit string denotes (reference reading, most significant digit first). */
  function ParseDigits(s: string): nat
    requires AllDigits(s)
  {
    if |s| == 0 then 0 else ParseDigits(s[..|s| - 1]) * 10 + DigitValue(s[|s| - 1])
  }

  /** Python's `str` of an integer: a minus sign before the digits of a negative number. */
  function IntToString(i: int): (s: string)
    ensures |s| >= 1
    ensures s[0] == '-' <==> i < 0
    ensures i >= 0 ==> AllDigits(s) && ParseDigits(s) == i
    ensures i < 0 ==> AllDigits(s[1..]) && ParseDigits(s[1..]) == -i
    // no leading zero: a zero digit comes first only in "0" itself
    ensures i >= 0 ==> (s[0] == '0' <==> i == 0)
    ensures i < 0 ==> |s| >= 2 && s[1] != '0'
  {
    if i < 0 then
      ParseNatToString(-i);
      var digits := NatToString(-i);
      assert ("-" + digits)[1..] == digits;
      "-" + digits
    else
      ParseNatToString(i);
      NatToString(i)
  }

  /** Reading back a rendered number yields the number. */
  lemma {:induction false} ParseNatToString(n: nat)
    ensures ParseDigits(NatToString(n)) == n
    decreases n
  {
    var s := NatToString(n);
    if n >= 10 {
      ParseNatToString(n / 10);
      assert s[..|s| - 1] == NatToString(n / 10);
    }
  }

  /** Different naturals never render the same way. */
  lemma NatToStringInjective(a: nat, b: nat)
    requires NatToString(a) == NatToString(b)
    ensures a == b
  {
    ParseNatToString(a);
    ParseNatToString(b);
  }

  /** Different integers never render the same way, so the rendering loses nothing. */
  lemma IntToStringInjective(a: int, b: int)
    ensures IntToString(a) == IntToString(b) <==> a == b
  {
    var sa := IntToString(a);
    var sb := IntToString(b);
    if sa == sb {
      if a < 0 {
        assert b < 0 by { assert sb[0] == '-'; }
        assert NatToString(-a) == sa[1..] by { assert sa == "-" + NatToString(-a); }
        assert NatToString(-b) == sb[1..] by { assert sb == "-" + NatToString(-b); }
        NatToStringInjective(-a, -b);
      } else {
        assert b >= 0 by { assert sb[0] != '-'; }
        NatToStringInjective(a, b);
      }
    }
  }
}

=== FILE: outcome.dfy ===
/** Failure-carrying datatypes shared by the model. */
module Outcome {

  /** A value that may be missing (Python's `None`). */
  datatype Option<+T> = None | Some(value: T)

  /** The outcome of a call: a returned value or a raised exception. */
  datatype Result<+T, +E> = Ok(value: T) | Err(error: E)

  /** An attribute of a Python object, which may never have been assigned. */
  datatype Attr<+T> = Absent | Present(value: T)
}

=== FILE: stdlib.dfy ===
/** The two wrappers `install_httplib` puts around `HTTPConnection.putrequest` and
    `HTTPConnection.getresponse` (sentry_sdk/integrations/stdlib.py), as pure transitions
    from a connection and a hub to a pass-through result, a new connection and the events
    handed to the hub. */
module Stdlib {
  import opened Outcome
  import opened DataDict
  import Url

  /** An opaque span handle returned by the hub. */
  type SpanId = nat

  /** The attribute line 68 reads with no default. */
  const SpanAttribute := "_sentrysdk_span"

  /** A connection as the wrappers see it: the three address attributes they read and the
      two attributes they write, each of which may never have been assigned. */
  datatype Connection = Connection(
    host: string,
    port: int,
    defaultPort: int,
    dataDict: Attr<Dict>,
    span: Attr<Option<SpanId>>)

  /** A connection no instrumented `putrequest` has touched. */
  function Fresh(host: string, port: int, defaultPort: int): Connection {
    Connection(host, port, defaultPort, Absent, Absent)
  }

  /** What the wrappers learn from `Hub.current` during one call: whether the integration is
      installed, the propagation headers it yields, and what `start_span` returns. */
  datatype Hub = Hub(enabled: bool, propagationHeaders: seq<(string, string)>, startSpanResult: Option<SpanId>)

  /** The response object: the two fields read, and an identity standing for the object itself. */
  datatype Response = Response(status: int, reason: string, handle: nat)

  /** Everything the wrappers ask of the hub, its spans and the connection's header buffer. */
  datatype Event =
    | StartSpan(op: string, description: string)
    | PutHeader(name: string, headerValue: string)
    | SetTag(tagged: SpanId, key: string, status: int)
    | SetData(target: SpanId, key: string, value: Value)
    | Finish(finished: SpanId)
    | Breadcrumb(kind: string, category: string, data: Dict, hint: Response)

  /** Exceptions: from the wrapped transport call, or the missing-attribute read. */
  datatype Error = TransportError(detail: string) | AttributeError(attribute: string)

  /** What a wrapper call leaves behind: its returned value or raised exception, the
      connection afterwards, and the events emitted during the call, in order. */
  datatype Call<+T> = Call(result: Result<T, Error>, conn: Connection, events: seq<Event>)

  /** One `putheader` per propagation header, in the order the hub yields them. */
  function HeaderEvents(headers: seq<(string, string)>): (r: seq<Event>)
    ensures |r| == |headers|
    ensures forall i :: 0 <= i < |r| ==> r[i] == PutHeader(headers[i].0, headers[i].1)
  {
    if |headers| == 0 then [] else [PutHeader(headers[0].0, headers[0].1)] + HeaderEvents(headers[1..])
  }

  /** One `set_data` per dict entry, in insertion order. */
  function DataEvents(s: SpanId, data: Items): (r: seq<Event>)
    ensures |r| == |data|
    ensures forall i :: 0 <= i < |r| ==> r[i] == SetData(s, data[i].0, data[i].1)
  {
    if |data| == 0 then [] else [SetData(s, data[0].0, data[0].1)] + DataEvents(s, data[1..])
  }

  /** The dict lines 44 and 52-53 build: `url`, then `method`. */
  function RequestData(u: string, verb: string): Dict {
    [("url", Str(u)), ("method", Str(verb))]
  }

  /** The wrapped `putrequest`. `sent` is what the real `putrequest` returned or raised. */
  function PutRequest<T>(conn: Connection, hub: Hub, verb: string, url: string,
                         sent: Result<T, Error>): (r: Call<T>)
    // the real call runs first; whatever it returns or raises is passed through
    ensures r.result == sent
    // its exception propagates before any instrumentation
    ensures sent.Err? ==> r.conn == conn && r.events == []
    // disabled fast path
    ensures !hub.enabled ==> r.conn == conn && r.events == []
    // the address attributes are only read
    ensures r.conn.host == conn.host && r.conn.port == conn.port && r.conn.defaultPort == conn.defaultPort
    ensures sent.Ok? && hub.enabled ==>
      var u := Url.CanonicalUrl(url, conn.host, conn.port, conn.defaultPort);
      // a fresh dict holding exactly url then method replaces any earlier one
      && r.conn.dataDict == Present(RequestData(u, verb))
      // whatever start_span returned is stored as the span
      && r.conn.span == Present(hub.startSpanResult)
  {
    if sent.Err? || !hub.enabled then Call(sent, conn, [])
    else
      var realUrl := Url.CanonicalUrl(url, conn.host, conn.port, conn.defaultPort);
      var data := RequestData(realUrl, verb);
      Call(sent,
           conn.(dataDict := Present(data), span := Present(hub.startSpanResult)),
           [StartSpan("http", realUrl + " " + verb)] + HeaderEvents(hub.propagationHeaders))
  }

  /** An instrumented `putrequest` emits one span start with op "http" and description
      "<url> <method>", then one header per propagation header in the hub's order, and
      nothing else. */
  lemma PutRequestEvents<T>(conn: Connection, hub: Hub, verb: string, url: string, sent: T)
    requires hub.enabled
    ensures var r := PutRequest(conn, hub, verb, url, Ok(sent));
      var u := Url.CanonicalUrl(url, conn.host, conn.port, conn.defaultPort);
      && |r.events| == 1 + |hub.propagationHeaders|
      && r.events[0] == StartSpan("http", u + " " + verb)
      && forall i :: 0 <= i < |hub.propagationHeaders| ==>
           r.events[i + 1] == PutHeader(hub.propagationHeaders[i].0, hub.propagationHeaders[i].1)
  {
    var r := PutRequest(conn, hub, verb, url, Ok(sent));
    var u := Url.CanonicalUrl(url, conn.host, conn.port, conn.defaultPort);
    var headers := HeaderEvents(hub.propagationHeaders);
    assert r.events == [StartSpan("http", u + " " + verb)] + headers;
    forall i | 0 <= i < |hub.propagationHeaders|
      ensures r.events[i + 1] == PutHeader(hub.propagationHeaders[i].0, hub.propagationHeaders[i].1)
    {
      assert r.events[i + 1] == headers[i];
    }
  }

  /** Lines 64-66: `status_code` and `reason` are written only while `status_code` is absent. */
  function RecordStatus(data: Dict, rv: Response): (r: Dict)
    ensures HasKey(data, "status_code") ==> r == data
    ensures !HasKey(data, "status_code") && !HasKey(data, "reason") ==>
      r == data + [("status_code", Int(rv.status)), ("reason", Str(rv.reason))]
    // `reason` already there is overwritten where it sits, and `status_code` goes last
    ensures !HasKey(data, "status_code") && HasKey(data, "reason") ==>
      && |r| == |data| + 1
      && r[|data|] == ("status_code", Int(rv.status))
      && forall i :: 0 <= i < |data| ==>
           r[i] == if data[i].0 == "reason" then ("reason", Str(rv.reason)) else data[i]
  {
    if HasKey(data, "status_code") then data
    else
      var withStatus := Set(data, "status_code", Int(rv.status));
      assert forall i :: 0 <= i < |data| ==> withStatus[i] == data[i];
      Set(withStatus, "reason", Str(rv.reason))
  }

  /** After lines 64-66 `status_code` is always present; it keeps an earlier value, and
      otherwise takes the response's status and reason, every other key keeping its value. */
  lemma RecordStatusFacts(data: Dict, rv: Response)
    ensures var r := RecordStatus(data, rv);
      && HasKey(r, "status_code")
      && (HasKey(data, "status_code") ==> Get(r, "status_code") == Get(data, "status_code"))
      && (!HasKey(data, "status_code") ==>
            && Get(r, "status_code") == Some(Int(rv.status))
            && Get(r, "reason") == Some(Str(rv.reason))
            && forall k :: k != "status_code" && k != "reason" ==> Get(r, k) == Get(data, k))
  {
    if !HasKey(data, "status_code") {
      var d1 := Set(data, "status_code", Int(rv.status));
      var d2 := Set(d1, "reason", Str(rv.reason));
      forall k
        ensures Get(d2, k) == if k == "reason" then Some(Str(rv.reason))
                              else if k == "status_code" then Some(Int(rv.status))
                              else Get(data, k)
      {
        SetGet(d1, "reason", Str(rv.reason), k);
        SetGet(data, "status_code", Int(rv.status), k);
      }
      assert Get(d2, "status_code").Some?;
    }
  }

  /** Python truthiness of `getattr(self, "_sentrysdk_data_dict", None)`: only a stored,
      non-empty dict is used; otherwise line 62 works on a fresh local dict never stored back. */
  predicate StoredDataInUse(conn: Connection) {
    conn.dataDict.Present? && |conn.dataDict.value| > 0
  }

  /** The dict line 62 binds to `data`. */
  function WorkingData(conn: Connection): Dict {
    if StoredDataInUse(conn) then conn.dataDict.value else []
  }

  /** The span's events at lines 70-73: the tag, the data entries, the finish. */
  function SpanEvents(s: SpanId, status: int, data: Dict): seq<Event> {
    [SetTag(s, "status_code", status)] + DataEvents(s, data) + [Finish(s)]
  }

  /** The wrapped `getresponse`. `received` is what the real `getresponse` returned or raised. */
  function GetResponse(conn: Connection, hub: Hub, received: Result<Response, Error>): (r: Call<Response>)
    // the real call runs first; its exception propagates before any instrumentation
    ensures received.Err? ==> r == Call(received, conn, [])
    // disabled fast path
    ensures !hub.enabled ==> r == Call(received, conn, [])
    // the only failure of its own: reading a span attribute that was never assigned
    ensures r.result.Err? <==> received.Err? || (hub.enabled && conn.span.Absent?)
    ensures received.Ok? && r.result.Err? ==> r.result.error == AttributeError(SpanAttribute) && r.events == []
    ensures r.result.Ok? ==> r.result == received
    // only the stored data dict may change, and only when it is the one in use
    ensures r.conn.(dataDict := conn.dataDict) == conn
    ensures !StoredDataInUse(conn) ==> r.conn == conn
    // status_code is written at most once: once present, nothing about the connection changes
    ensures conn.dataDict.Present? && HasKey(conn.dataDict.value, "status_code") ==> r.conn == conn
    // a stored dict in use is the one lines 64-66 write to, and it is stored back with
    // every other entry, and the order of the entries, kept
    ensures received.Ok? && hub.enabled && StoredDataInUse(conn) ==>
      r.conn.dataDict == Present(RecordStatus(conn.dataDict.value, received.value))
    ensures received.Ok? && hub.enabled && StoredDataInUse(conn)
            && !HasKey(conn.dataDict.value, "status_code") ==>
      && r.conn.dataDict.Present?
      && Get(r.conn.dataDict.value, "status_code") == Some(Int(received.value.status))
      && Get(r.conn.dataDict.value, "reason") == Some(Str(received.value.reason))
  {
    if received.Err? || !hub.enabled then Call(received, conn, [])
    else
      var rv := received.value;
      var data := RecordStatus(WorkingData(conn), rv);
      RecordStatusFacts(WorkingData(conn), rv);
      var conn' := if StoredDataInUse(conn) then conn.(dataDict := Present(data)) else conn;
      match conn.span
      case Absent => Call(Err(AttributeError(SpanAttribute)), conn', [])
      case Present(span) =>
        var spanEvents := match span
          case None => []
          case Some(s) => SpanEvents(s, rv.status, data);
        Call(received, conn', spanEvents + [Breadcrumb("http", "httplib", data, rv)])
  }

  /** The last event of a non-empty log. */
  function Last(events: seq<Event>): Event
    requires |events| > 0
  {
    events[|events| - 1]
  }

  /** A successful instrumented `getresponse` ends with exactly one breadcrumb, of type
      "http" and category "httplib", carrying the updated dict and the response. */
  lemma GetResponseBreadcrumb(conn: Connection, hub: Hub, rv: Response)
    requires hub.enabled && conn.span.Present?
    ensures var r := GetResponse(conn, hub, Ok(rv));
      && r.result == Ok(rv)
      && |r.events| >= 1
      && var last := Last(r.events);
      && last.Breadcrumb? && last.kind == "http" && last.category == "httplib" && last.hint == rv
      && HasKey(last.data, "status_code")
      && (StoredDataInUse(conn) ==> r.conn.dataDict == Present(last.data))
      && (!StoredDataInUse(conn) ==> last.data == [("status_code", Int(rv.status)), ("reason", Str(rv.reason))])
      && (conn.span == Present(None) ==> |r.events| == 1)
  {
    var data := RecordStatus(WorkingData(conn), rv);
    RecordStatusFacts(WorkingData(conn), rv);
    var r := GetResponse(conn, hub, Ok(rv));
    assert Last(r.events) == Breadcrumb("http", "httplib", data, rv);
  }

  /** With a span stored, the breadcrumb is preceded by the status tag (taken from this
      response, not the stored one), one set_data per dict entry in insertion order, and
      exactly one finish. */
  lemma GetResponseSpanEvents(conn: Connection, hub: Hub, rv: Response, s: SpanId)
    requires hub.enabled && conn.span == Present(Some(s))
    ensures var r := GetResponse(conn, hub, Ok(rv));
      && |r.events| >= 3
      && var data := r.events[|r.events| - 1].data;
      && |r.events| == |data| + 3
      && r.events[0] == SetTag(s, "status_code", rv.status)
      && (forall i :: 0 <= i < |data| ==> r.events[i + 1] == SetData(s, data[i].0, data[i].1))
      && r.events[|r.events| - 2] == Finish(s)
  {
    var data := RecordStatus(WorkingData(conn), rv);
    var r := GetResponse(conn, hub, Ok(rv));
    var body := DataEvents(s, data);
    var crumb := Breadcrumb("http", "httplib", data, rv);
    assert r.events == [SetTag(s, "status_code", rv.status)] + body + [Finish(s), crumb] by {
      GetResponseWithSpan(conn, hub, rv, s);
    }
    assert |r.events| == |data| + 3 && r.events[|r.events| - 1] == crumb;
    forall i | 0 <= i < |data|
      ensures r.events[i + 1] == SetData(s, data[i].0, data[i].1)
    {
      assert r.events[i + 1] == body[i];
    }
  }

  /** What `getresponse` does once a span is stored, in terms of the dict it records. */
  lemma GetResponseWithSpan(conn: Connection, hub: Hub, rv: Response, s: SpanId)
    requires hub.enabled && conn.span == Present(Some(s))
    ensures var data := RecordStatus(WorkingData(conn), rv);
      var c := GetResponse(conn, hub, Ok(rv));
      && (StoredDataInUse(conn) ==> c.conn == conn.(dataDict := Present(data)))
      && c.events == SpanEvents(s, rv.status, data) + [Breadcrumb("http", "httplib", data, rv)]
  {
  }
}

=== FILE: steplog.dfy ===
/** Folding a state through a sequence of calls while appending their outputs to a log. */
module StepLog {

  /** Runs `step` over `xs` from state `s`: the final state and the concatenated outputs. */
  function Fold<S, A, E>(step: (S, A) -> (S, seq<E>), s: S, xs: seq<A>): (S, seq<E>)
    decreases |xs|
  {
    if |xs| == 0 then (s, [])
    else
      var first := step(s, xs[0]);
      var rest := Fold(step, first.0, xs[1..]);
      (rest.0, first.1 + rest.1)
  }

  /** A fold is its first call, then the rest from the state that call leaves. */
  lemma FoldCons<S, A, E>(step: (S, A) -> (S, seq<E>), s: S, x: A, rest: seq<A>)
    ensures var first := step(s, x);
      var r := Fold(step, first.0, rest);
      Fold(step, s, [x] + rest) == (r.0, first.1 + r.1)
  {
    assert ([x] + rest)[1..] == rest;
  }

  /** A one-call fold is that call. */
  lemma FoldSingle<S, A, E>(step: (S, A) -> (S, seq<E>), s: S, x: A)
    ensures Fold(step, s, [x]) == step(s, x)
  {
    FoldCons(step, s, x, []);
    assert [x] + [] == [x];
    assert step(s, x).1 + [] == step(s, x).1;
  }

  /** Folding over two sequences in turn is folding over their concatenation. */
  lemma {:induction false} FoldAppend<S, A, E>(step: (S, A) -> (S, seq<E>), s: S, a: seq<A>, b: seq<A>)
    ensures var ra := Fold(step, s, a);
      var rb := Fold(step, ra.0, b);
      Fold(step, s, a + b) == (rb.0, ra.1 + rb.1)
    decreases |a|
  {
    if |a| == 0 {
      assert a + b == b;
      assert [] + Fold(step, s, b).1 == Fold(step, s, b).1;
    } else {
      var first := step(s, a[0]);
      var ra' := Fold(step, first.0, a[1..]);
      var rb := Fold(step, ra'.0, b);
      assert a + b == [a[0]] + (a[1..] + b);
      FoldCons(step, s, a[0], a[1..] + b);
      FoldAppend(step, first.0, a[1..], b);
      assert first.1 + (ra'.1 + rb.1) == (first.1 + ra'.1) + rb.1;
    }
  }
}

=== FILE: trace.dfy ===
/** Sequential traces of wrapped calls on one connection: the connection's state is carried
    through, and each call's events are appended to one log. */
module Trace {
  import opened Outcome
  import opened DataDict
  import opened Stdlib
  import StepLog

  /** One wrapped call, with the hub it meets and what the real call returned or raised. */
  datatype Step<T> =
    | Send(hub: Hub, verb: string, url: string, sent: Result<T, Error>)
    | Receive(hub: Hub, received: Result<Response, Error>)

  /** The connection after one step and the events it emitted. A raised exception does not
      end the trace: the caller may go on using the connection. */
  function Apply<T>(conn: Connection, step: Step<T>): (Connection, seq<Event>) {
    match step
    case Send(hub, verb, url, sent) =>
      var c := PutRequest(conn, hub, verb, url, sent); (c.conn, c.events)
    case Receive(hub, received) =>
      var c := GetResponse(conn, hub, received); (c.conn, c.events)
  }

  /** `Apply` as a value, for folding. */
  function StepFunction<T>(): (Connection, Step<T>) -> (Connection, seq<Event>) {
    (conn: Connection, step: Step<T>) => Apply(conn, step)
  }

  /** The connection after all the steps, and the append-only log of their events. */
  function Run<T>(conn: Connection, steps: seq<Step<T>>): (Connection, seq<Event>) {
    StepLog.Fold(StepFunction(), conn, steps)
  }

  /** A trace is its first step, then the rest from the connection that step leaves. */
  lemma RunCons<T>(conn: Connection, step: Step<T>, rest: seq<Step<T>>)
    ensures var first := Apply(conn, step);
      var r := Run(first.0, rest);
      Run(conn, [step] + rest) == (r.0, first.1 + r.1)
  {
    StepLog.FoldCons(StepFunction(), conn, step, rest);
  }

  /** A trace whose first step is split off. */
  lemma RunFirst<T>(conn: Connection, steps: seq<Step<T>>)
    requires |steps| > 0
    ensures var first := Apply(conn, steps[0]);
      var r := Run(first.0, steps[1..]);
      Run(conn, steps) == (r.0, first.1 + r.1)
  {
    assert steps == [steps[0]] + steps[1..];
    RunCons(conn, steps[0], steps[1..]);
  }

  /** A two-step trace. */
  lemma RunPair<T>(conn: Connection, a: Step<T>, b: Step<T>)
    ensures var first := Apply(conn, a);
      var second := Apply(first.0, b);
      Run(conn, [a, b]) == (second.0, first.1 + second.1)
  {
    assert [a, b] == [a] + [b];
    RunCons(conn, a, [b]);
    StepLog.FoldSingle(StepFunction(), Apply(conn, a).0, b);
  }

  /** Running two traces one after the other is running their concatenation. */
  lemma RunAppend<T>(conn: Connection, a: seq<Step<T>>, b: seq<Step<T>>)
    ensures var ra := Run(conn, a);
      var rb := Run(ra.0, b);
      Run(conn, a + b) == (rb.0, ra.1 + rb.1)
  {
    StepLog.FoldAppend(StepFunction(), conn, a, b);
  }

  /** The log is append-only: later calls never change what earlier calls logged. */
  lemma LogAppendOnly<T>(conn: Connection, a: seq<Step<T>>, b: seq<Step<T>>)
    ensures var log := Run(conn, a).1;
      log <= Run(conn, a + b).1
  {
    RunAppend(conn, a, b);
  }

  /** The wrappers only read the address attributes, and never unset the span attribute. */
  lemma {:induction false} RunKeepsAddress<T>(conn: Connection, steps: seq<Step<T>>)
    ensures var c := Run(conn, steps).0;
      && c.host == conn.host && c.port == conn.port && c.defaultPort == conn.defaultPort
      && (conn.span.Present? ==> c.span.Present?)
    decreases |steps|
  {
    if |steps| > 0 {
      RunFirst(conn, steps);
      RunKeepsAddress(Apply(conn, steps[0]).0, steps[1..]);
    }
  }

  /** With the integration disabled throughout, the calls leave no trace at all. */
  lemma {:induction false} DisabledTraceInvisible<T>(conn: Connection, steps: seq<Step<T>>)
    requires forall i :: 0 <= i < |steps| ==> !steps[i].hub.enabled
    ensures Run(conn, steps) == (conn, [])
    decreases |steps|
  {
    if |steps| > 0 {
      var first := Apply(conn, steps[0]);
      assert first.0 == conn && first.1 == [];
      var tail := steps[1..];
      assert forall i :: 0 <= i < |tail| ==> tail[i] == steps[i + 1];
      DisabledTraceInvisible(conn, tail);
      RunFirst(conn, steps);
      assert first.1 + Run(conn, tail).1 == [];
    }
  }

  function CountBreadcrumbs(log: seq<Event>): nat {
    if |log| == 0 then 0 else (if log[0].Breadcrumb? then 1 else 0) + CountBreadcrumbs(log[1..])
  }

  function CountFinishes(log: seq<Event>, s: SpanId): nat {
    if |log| == 0 then 0 else (if log[0] == Finish(s) then 1 else 0) + CountFinishes(log[1..], s)
  }

  function CountGets<T>(steps: seq<Step<T>>): nat {
    if |steps| == 0 then 0 else (if steps[0].Receive? then 1 else 0) + CountGets(steps[1..])
  }

  lemma {:induction false} CountBreadcrumbsAppend(a: seq<Event>, b: seq<Event>)
    ensures CountBreadcrumbs(a + b) == CountBreadcrumbs(a) + CountBreadcrumbs(b)
  {
    if |a| > 0 {
      assert (a + b)[1..] == a[1..] + b;
      CountBreadcrumbsAppend(a[1..], b);
    } else {
      assert a + b == b;
    }
  }

  lemma {:induction false} CountFinishesAppend(a: seq<Event>, b: seq<Event>, s: SpanId)
    ensures CountFinishes(a + b, s) == CountFinishes(a, s) + CountFinishes(b, s)
  {
    if |a| > 0 {
      assert (a + b)[1..] == a[1..] + b;
      CountFinishesAppend(a[1..], b, s);
    } else {
      assert a + b == b;
    }
  }

  lemma CountFinishesAppend3(a: seq<Event>, b: seq<Event>, c: seq<Event>, s: SpanId)
    ensures CountFinishes(a + (b + c), s) == CountFinishes(a, s) + CountFinishes(b, s) + CountFinishes(c, s)
  {
    CountFinishesAppend(b, c, s);
    CountFinishesAppend(a, b + c, s);
  }

  /** Header injection emits no breadcrumb and finishes no span. */
  lemma {:induction false} NoBreadcrumbInHeaders(headers: seq<(string, string)>, t: SpanId)
    ensures CountBreadcrumbs(HeaderEvents(headers)) == 0
    ensures CountFinishes(HeaderEvents(headers), t) == 0
  {
    if |headers| > 0 {
      var h := HeaderEvents(headers);
      assert h[1..] == HeaderEvents(headers[1..]);
      NoBreadcrumbInHeaders(headers[1..], t);
    }
  }

  /** An instrumented `putrequest` emits no breadcrumb and finishes no span. */
  lemma PutRequestCounts<T>(conn: Connection, hub: Hub, verb: string, url: string, sent: Result<T, Error>, t: SpanId)
    ensures var c := PutRequest(conn, hub, verb, url, sent);
      CountBreadcrumbs(c.events) == 0 && CountFinishes(c.events, t) == 0
  {
    var c := PutRequest(conn, hub, verb, url, sent);
    if sent.Ok? && hub.enabled {
      NoBreadcrumbInHeaders(hub.propagationHeaders, t);
      assert c.events == [c.events[0]] + HeaderEvents(hub.propagationHeaders);
      CountBreadcrumbsAppend([c.events[0]], HeaderEvents(hub.propagationHeaders));
      CountFinishesAppend([c.events[0]], HeaderEvents(hub.propagationHeaders), t);
    }
  }

  /** A set_data sequence holds no breadcrumb and no finish. */
  lemma {:induction false} NothingButDataInDataEvents(s: SpanId, data: Items, t: SpanId)
    ensures CountBreadcrumbs(DataEvents(s, data)) == 0
    ensures CountFinishes(DataEvents(s, data), t) == 0
  {
    if |data| > 0 {
      var d := DataEvents(s, data);
      assert d[1..] == DataEvents(s, data[1..]);
      NothingButDataInDataEvents(s, data[1..], t);
    }
  }

  /** One successful instrumented `getresponse` emits exactly one breadcrumb, and finishes
      the stored span exactly once when there is one. */
  lemma GetResponseCounts(conn: Connection, hub: Hub, rv: Response, t: SpanId)
    requires hub.enabled && conn.span.Present?
    ensures var c := GetResponse(conn, hub, Ok(rv));
      && CountBreadcrumbs(c.events) == 1
      && CountFinishes(c.events, t) == (if conn.span.value == Some(t) then 1 else 0)
  {
    var c := GetResponse(conn, hub, Ok(rv));
    var data := RecordStatus(WorkingData(conn), rv);
    var crumb := [Breadcrumb("http", "httplib", data, rv)];
    assert CountBreadcrumbs(crumb) == 1 && CountFinishes(crumb, t) == 0;
    match conn.span.value
    case None =>
      assert c.events == [] + crumb;
    case Some(s) =>
      var tag: seq<Event> := [SetTag(s, "status_code", rv.status)];
      var fin: seq<Event> := [Finish(s)];
      var body := DataEvents(s, data);
      assert c.events == tag + body + fin + crumb;
      NothingButDataInDataEvents(s, data, t);
      CountBreadcrumbsAppend(tag, body);
      CountBreadcrumbsAppend(tag + body, fin);
      CountBreadcrumbsAppend(tag + body + fin, crumb);
      CountFinishesAppend(tag, body, t);
      CountFinishesAppend(tag + body, fin, t);
      CountFinishesAppend(tag + body + fin, crumb, t);
  }

  /** One successful instrumented step emits one breadcrumb if it is a `getresponse`, none
      if it is a `putrequest`, and leaves the connection instrumented. */
  lemma StepBreadcrumbs<T>(conn: Connection, step: Step<T>)
    requires step.hub.enabled
    requires step.Send? ==> step.sent.Ok?
    requires step.Receive? ==> step.received.Ok? && conn.span.Present?
    ensures CountBreadcrumbs(Apply(conn, step).1) == if step.Receive? then 1 else 0
    ensures Apply(conn, step).0.span.Present?
  {
    match step
    case Send(hub, verb, url, sent) =>
      PutRequestCounts(conn, hub, verb, url, sent, 0);
    case Receive(hub, received) =>
      GetResponseCounts(conn, hub, received.value, 0);
  }

  /** One breadcrumb per response: when every call succeeds with the integration enabled and
      the connection is instrumented by its first `putrequest` (or was already), the log holds
      exactly as many breadcrumbs as there were `getresponse` calls. */
  lemma {:induction false} BreadcrumbPerResponse<T>(conn: Connection, steps: seq<Step<T>>)
    requires forall i :: 0 <= i < |steps| ==> steps[i].hub.enabled
    requires forall i :: 0 <= i < |steps| ==> steps[i].Send? ==> steps[i].sent.Ok?
    requires forall i :: 0 <= i < |steps| ==> steps[i].Receive? ==> steps[i].received.Ok?
    requires conn.span.Present? || (|steps| > 0 && steps[0].Send?)
    ensures CountBreadcrumbs(Run(conn, steps).1) == CountGets(steps)
    decreases |steps|
  {
    if |steps| > 0 {
      var first := Apply(conn, steps[0]);
      StepBreadcrumbs(conn, steps[0]);
      var tail := steps[1..];
      assert forall i :: 0 <= i < |tail| ==> tail[i] == steps[i + 1];
      BreadcrumbPerResponse(first.0, tail);
      RunFirst(conn, steps);
      CountBreadcrumbsAppend(first.1, Run(first.0, tail).1);
    }
  }

  /** Once `status_code` is stored, no sequence of `getresponse` calls changes the
      connection: the first response's status and reason stay in place. */
  lemma {:induction false} StatusCodeKept<T>(conn: Connection, steps: seq<Step<T>>)
    requires conn.dataDict.Present? && HasKey(conn.dataDict.value, "status_code")
    requires forall i :: 0 <= i < |steps| ==> steps[i].Receive?
    ensures Run(conn, steps).0 == conn
    decreases |steps|
  {
    if |steps| > 0 {
      assert Apply(conn, steps[0]).0 == conn;
      RunFirst(conn, steps);
      StatusCodeKept(conn, steps[1..]);
    }
  }

  /** The dict after one exchange: `url`, `method`, `status_code`, `reason`. */
  function ExchangeData(u: string, verb: string, rv: Response): Dict {
    [("url", Str(u)), ("method", Str(verb)), ("status_code", Int(rv.status)), ("reason", Str(rv.reason))]
  }

  /** Recording a response into the dict an instrumented `putrequest` stored appends the
      status and the reason. */
  lemma RecordAfterSend(u: string, verb: string, rv: Response)
    ensures RecordStatus(RequestData(u, verb), rv) == ExchangeData(u, verb, rv)
  {
    assert !HasKey(RequestData(u, verb), "status_code");
  }

  /** The `getresponse` that follows an instrumented `putrequest`. */
  lemma ReceiveAfterSend(conn: Connection, hub: Hub, rv: Response, s: SpanId, u: string, verb: string)
    requires hub.enabled
    requires conn.dataDict == Present(RequestData(u, verb))
    requires conn.span == Present(Some(s))
    ensures var data := ExchangeData(u, verb, rv);
      var c := GetResponse(conn, hub, Ok(rv));
      && c.conn == conn.(dataDict := Present(data))
      && c.events == [SetTag(s, "status_code", rv.status),
                      SetData(s, "url", Str(u)), SetData(s, "method", Str(verb)),
                      SetData(s, "status_code", Int(rv.status)), SetData(s, "reason", Str(rv.reason)),
                      Finish(s), Breadcrumb("http", "httplib", data, rv)]
  {
    var data := ExchangeData(u, verb, rv);
    RecordAfterSend(u, verb, rv);
    GetResponseWithSpan(conn, hub, rv, s);
    SpanEventsOfFour(s, rv.status, data);
  }

  /** The span events of a four-entry dict, spelled out. */
  lemma SpanEventsOfFour(s: SpanId, status: int, data: Dict)
    requires |data| == 4
    ensures SpanEvents(s, status, data)
            == [SetTag(s, "status_code", status),
                SetData(s, data[0].0, data[0].1), SetData(s, data[1].0, data[1].1),
                SetData(s, data[2].0, data[2].1), SetData(s, data[3].0, data[3].1),
                Finish(s)]
  {
    var body := DataEvents(s, data);
    assert body == [SetData(s, data[0].0, data[0].1), SetData(s, data[1].0, data[1].1),
                    SetData(s, data[2].0, data[2].1), SetData(s, data[3].0, data[3].1)];
  }

  /** A full exchange on any connection: what is recorded, and in what order. */
  lemma ExchangeLog<T>(conn: Connection, putHub: Hub, verb: string, url: string, sent: T,
                       getHub: Hub, rv: Response, s: SpanId)
    requires putHub.enabled && getHub.enabled && putHub.startSpanResult == Some(s)
    ensures var u := Url.CanonicalUrl(url, conn.host, conn.port, conn.defaultPort);
      var data := ExchangeData(u, verb, rv);
      var r := Run(conn, [Send(putHub, verb, url, Ok(sent)), Receive(getHub, Ok(rv))]);
      && r.0.dataDict == Present(data)
      && r.0.span == Present(Some(s))
      && r.1 == [StartSpan("http", u + " " + verb)] + HeaderEvents(putHub.propagationHeaders)
                + [SetTag(s, "status_code", rv.status),
                   SetData(s, "url", Str(u)), SetData(s, "method", Str(verb)),
                   SetData(s, "status_code", Int(rv.status)), SetData(s, "reason", Str(rv.reason)),
                   Finish(s), Breadcrumb("http", "httplib", data, rv)]
  {
    var send: Step<T> := Send(putHub, verb, url, Ok(sent));
    var receive: Step<T> := Receive(getHub, Ok(rv));
    var u := Url.CanonicalUrl(url, conn.host, conn.port, conn.defaultPort);
    var c1 := PutRequest(conn, putHub, verb, url, Ok(sent));
    ReceiveAfterSend(c1.conn, getHub, rv, s, u, verb);
    RunPair(conn, send, receive);
  }

  /** The first response's status is the one kept: after an instrumented `putrequest`, the
      first `getresponse` records its status and reason, and later ones leave them in place. */
  lemma FirstResponseWins<T>(conn: Connection, putHub: Hub, verb: string, url: string, sent: T,
                             getHub: Hub, rv: Response, later: seq<Step<T>>)
    requires putHub.enabled && getHub.enabled
    requires forall i :: 0 <= i < |later| ==> later[i].Receive?
    ensures var d := Run(conn, [Send(putHub, verb, url, Ok(sent)), Receive(getHub, Ok(rv))] + later).0.dataDict;
      && d.Present?
      && Get(d.value, "status_code") == Some(Int(rv.status))
      && Get(d.value, "reason") == Some(Str(rv.reason))
  {
    var first: seq<Step<T>> := [Send(putHub, verb, url, Ok(sent)), Receive(getHub, Ok(rv))];
    var c1 := PutRequest(conn, putHub, verb, url, Ok(sent));
    var c2 := GetResponse(c1.conn, getHub, Ok(rv));
    RunPair(conn, first[0], first[1]);
    assert first == [first[0], first[1]];
    var u := Url.CanonicalUrl(url, conn.host, conn.port, conn.defaultPort);
    assert !HasKey(RequestData(u, verb), "status_code");
    RunAppend(conn, first, later);
    StatusCodeKept(c2.conn, later);
  }

  /** The span is not cleared after it is finished: a repeated `getresponse` finishes it again
      and adds a second breadcrumb. */
  lemma RepeatedGetFinishesAgain<T>(conn: Connection, hub1: Hub, rv1: Response, hub2: Hub, rv2: Response, s: SpanId)
    requires conn.span == Present(Some(s))
    requires hub1.enabled && hub2.enabled
    ensures var log := Run<T>(conn, [Receive(hub1, Ok(rv1)), Receive(hub2, Ok(rv2))]).1;
      CountFinishes(log, s) == 2 && CountBreadcrumbs(log) == 2
  {
    var steps: seq<Step<T>> := [Receive(hub1, Ok(rv1)), Receive(hub2, Ok(rv2))];
    var c1 := GetResponse(conn, hub1, Ok(rv1));
    var c2 := GetResponse(c1.conn, hub2, Ok(rv2));
    GetResponseCounts(conn, hub1, rv1, s);
    GetResponseCounts(c1.conn, hub2, rv2, s);
    RunPair(conn, steps[0], steps[1]);
    assert steps == [steps[0], steps[1]];
    CountFinishesAppend(c1.events, c2.events, s);
    CountBreadcrumbsAppend(c1.events, c2.events);
  }

  /** Reusing a connection before its response arrives orphans the earlier span: the second
      `putrequest` overwrites it, and only the second span is ever finished. */
  lemma PipelinedSpanOrphaned<T>(conn: Connection, hub1: Hub, verb1: string, url1: string, sent1: T,
                                 hub2: Hub, verb2: string, url2: string, sent2: T,
                                 hub3: Hub, rv: Response, s1: SpanId, s2: SpanId)
    requires hub1.enabled && hub2.enabled && hub3.enabled
    requires hub1.startSpanResult == Some(s1) && hub2.startSpanResult == Some(s2) && s1 != s2
    ensures var log := Run(conn, [Send(hub1, verb1, url1, Ok(sent1)), Send(hub2, verb2, url2, Ok(sent2)),
                                  Receive(hub3, Ok(rv))]).1;
      CountFinishes(log, s1) == 0 && CountFinishes(log, s2) == 1
  {
    var steps: seq<Step<T>> := [Send(hub1, verb1, url1, Ok(sent1)), Send(hub2, verb2, url2, Ok(sent2)),
                                Receive(hub3, Ok(rv))];
    var c1 := PutRequest(conn, hub1, verb1, url1, Ok(sent1));
    var c2 := PutRequest(c1.conn, hub2, verb2, url2, Ok(sent2));
    var c3 := GetResponse(c2.conn, hub3, Ok(rv));
    assert Run(conn, steps).1 == c1.events + (c2.events + c3.events) by {
      assert steps == [steps[0]] + [steps[1], steps[2]];
      RunCons(conn, steps[0], [steps[1], steps[2]]);
      RunPair(c1.conn, steps[1], steps[2]);
    }
    assert CountFinishes(c1.events, s1) == 0 && CountFinishes(c1.events, s2) == 0 by {
      PutRequestCounts(conn, hub1, verb1, url1, Ok(sent1), s1);
      PutRequestCounts(conn, hub1, verb1, url1, Ok(sent1), s2);
    }
    assert CountFinishes(c2.events, s1) == 0 && CountFinishes(c2.events, s2) == 0 by {
      PutRequestCounts(c1.conn, hub2, verb2, url2, Ok(sent2), s1);
      PutRequestCounts(c1.conn, hub2, verb2, url2, Ok(sent2), s2);
    }
    assert CountFinishes(c3.events, s1) == 0 && CountFinishes(c3.events, s2) == 1 by {
      assert c2.conn.span == Present(Some(s2));
      GetResponseCounts(c2.conn, hub3, rv, s1);
      GetResponseCounts(c2.conn, hub3, rv, s2);
    }
    CountFinishesAppend3(c1.events, c2.events, c3.events, s1);
    CountFinishesAppend3(c1.events, c2.events, c3.events, s2);
  }

  /** On a connection no instrumented `putrequest` has touched, a `putrequest` made while the
      integration was off leaves no span attribute, so an instrumented `getresponse` raises
      instead of degrading. */
  lemma UninstrumentedGetFails<T>(host: string, port: int, defaultPort: int, putHub: Hub,
                                  verb: string, url: string, sent: Result<T, Error>,
                                  getHub: Hub, rv: Response)
    requires !putHub.enabled && getHub.enabled
    ensures var conn := Run(Fresh(host, port, defaultPort), [Send(putHub, verb, url, sent)]).0;
      var c := GetResponse(conn, getHub, Ok(rv));
      c.result == Err(AttributeError(SpanAttribute)) && c.events == [] && c.conn == conn
  {
    var steps: seq<Step<T>> := [Send(putHub, verb, url, sent)];
    StepLog.FoldSingle(StepFunction(), Fresh(host, port, defaultPort), steps[0]);
  }

  /** On a reused connection a `putrequest` made while the integration was off leaves the
      previous request's dict and span in place, so the next instrumented `getresponse` does
      not raise: it finishes the previous span again and reports the previous dict unchanged. */
  lemma StaleStateReported<T>(conn: Connection, off: Hub, verb: string, url: string, sent: T,
                              on: Hub, rv: Response, s: SpanId)
    requires !off.enabled && on.enabled
    requires conn.span == Present(Some(s))
    requires conn.dataDict.Present? && HasKey(conn.dataDict.value, "status_code")
    ensures var r := Run(conn, [Send(off, verb, url, Ok(sent)), Receive(on, Ok(rv))]);
      && r.0 == conn
      && CountFinishes(r.1, s) == 1
      && |r.1| > 0
      && Last(r.1) == Breadcrumb("http", "httplib", conn.dataDict.value, rv)
  {
    var c := GetResponse(conn, on, Ok(rv));
    RunPair(conn, Send(off, verb, url, Ok(sent)), Receive(on, Ok(rv)));
    assert Run(conn, [Send(off, verb, url, Ok(sent)), Receive(on, Ok(rv))]) == (c.conn, [] + c.events);
    assert [] + c.events == c.events;
    GetResponseCounts(conn, on, rv, s);
    GetResponseBreadcrumb(conn, on, rv);
  }
}

=== FILE: url.dfy ===
/** The URL the integration records for a request (stdlib.py, `putrequest`). */
module Url {
  import Decimal

  /** `s.startswith(prefix)`: Dafny's `prefix <= s` (see `StartsWithIsPrefix`), spelled out
      character by character, which keeps the proofs about glued URLs free of slice equalities. */
  predicate StartsWith(s: string, prefix: string) {
    |prefix| <= |s| && forall i :: 0 <= i < |prefix| ==> s[i] == prefix[i]
  }

  /** The character-wise test is the built-in sequence-prefix test. */
  lemma StartsWithIsPrefix(s: string, prefix: string)
    ensures StartsWith(s, prefix) <==> prefix <= s
  {
  }

  /** `url.startswith(("http://", "https://"))`: the caller already gave an absolute URL. */
  predicate IsAbsolute(url: string) {
    StartsWith(url, "http://") || StartsWith(url, "https://")
  }

  /** The scheme follows the connection class's default port: 443 means TLS. */
  function Scheme(defaultPort: int): string {
    if defaultPort == 443 then "https" else "http"
  }

  /** `":%s" % port` when the port differs from the default, nothing otherwise. */
  function PortSegment(port: int, defaultPort: int): string {
    if port != defaultPort then ":" + Decimal.IntToString(port) else ""
  }

  /** `"%s://" % scheme`. */
  function SchemePart(defaultPort: int): string {
    Scheme(defaultPort) + "://"
  }

  /** The recorded URL: an absolute `url` as given, otherwise scheme, host, port and `url`
      glued together with no separator between the port and `url`. */
  function CanonicalUrl(url: string, host: string, port: int, defaultPort: int): (r: string)
    ensures IsAbsolute(r)
    ensures IsAbsolute(url) ==> r == url
  {
    if IsAbsolute(url) then url
    else
      var rest := host + PortSegment(port, defaultPort) + url;
      SchemePrefix(rest, defaultPort);
      SchemePart(defaultPort) + rest
  }

  /** The scheme part: "https://" exactly for default port 443, "http://" otherwise. */
  lemma SchemePrefix(rest: string, defaultPort: int)
    ensures StartsWith(SchemePart(defaultPort) + rest, "https://") <==> defaultPort == 443
    ensures StartsWith(SchemePart(defaultPort) + rest, "http://") <==> defaultPort != 443
  {
    var r := SchemePart(defaultPort) + rest;
    if defaultPort == 443 {
      assert SchemePart(defaultPort) == "https://";
      assert r[..8] == "https://";
      assert !StartsWith(r, "http://") by { assert r[4] == 's'; }
    } else {
      assert SchemePart(defaultPort) == "http://";
      assert r[..7] == "http://";
      assert !StartsWith(r, "https://") by { if |r| >= 8 { assert r[4] == ':'; } }
    }
  }

  /** Each piece of a concatenation is found again at its offset. */
  lemma ConcatSlices(p: string, host: string, seg: string, url: string)
    ensures var r := p + (host + seg + url);
      && r[|p|..|p| + |host|] == host
      && r[|p| + |host|..|r| - |url|] == seg
      && r[|r| - |url|..] == url
  {
    var rest := host + seg + url;
    var r := p + rest;
    assert |r| == |p| + |host| + |seg| + |url|;
    assert r[|p|..] == rest;
    assert rest[..|host|] == host;
    assert rest[|host|..|rest| - |url|] == seg;
    assert rest[|rest| - |url|..] == url;
  }

  /** The port segment names the port: equal segments mean equal ports. */
  lemma PortSegmentInjective(port1: int, port2: int, defaultPort: int)
    requires PortSegment(port1, defaultPort) == PortSegment(port2, defaultPort)
    ensures port1 == port2
  {
    var s1 := PortSegment(port1, defaultPort);
    if port1 != defaultPort && port2 != defaultPort {
      assert Decimal.IntToString(port1) == s1[1..];
      Decimal.IntToStringInjective(port1, port2);
    }
  }

  /** The scheme of a synthesised URL: `https://` exactly when the default port is 443,
      `http://` otherwise. */
  lemma CanonicalUrlScheme(url: string, host: string, port: int, defaultPort: int)
    requires !IsAbsolute(url)
    ensures var r := CanonicalUrl(url, host, port, defaultPort);
      && (StartsWith(r, "https://") <==> defaultPort == 443)
      && (StartsWith(r, "http://") <==> defaultPort != 443)
  {
    SchemePrefix(host + PortSegment(port, defaultPort) + url, defaultPort);
  }

  /** The rest of a synthesised URL: the host right after the scheme, then ":" and the
      decimal port exactly when the port is not the default one, then `url`, with nothing
      else in between. */
  lemma CanonicalUrlLayout(url: string, host: string, port: int, defaultPort: int)
    requires !IsAbsolute(url)
    ensures var r := CanonicalUrl(url, host, port, defaultPort);
      var h := |SchemePart(defaultPort)|;
      && h + |host| <= |r| - |url|
      && r[h..h + |host|] == host
      && r[|r| - |url|..] == url
      && (port == defaultPort ==> |r| == h + |host| + |url|)
      && (port != defaultPort ==> r[h + |host|..|r| - |url|] == ":" + Decimal.IntToString(port))
  {
    CanonicalUrlRelative(url, host, port, defaultPort);
    SynthesisedLayout(url, host, port, defaultPort);
  }

  /** A relative `url` is glued onto scheme, host and port. */
  lemma CanonicalUrlRelative(url: string, host: string, port: int, defaultPort: int)
    requires !IsAbsolute(url)
    ensures CanonicalUrl(url, host, port, defaultPort)
            == SchemePart(defaultPort) + (host + PortSegment(port, defaultPort) + url)
  {
  }

  /** `CanonicalUrlLayout`'s statement about the glued string itself. */
  lemma SynthesisedLayout(url: string, host: string, port: int, defaultPort: int)
    ensures var r := SchemePart(defaultPort) + (host + PortSegment(port, defaultPort) + url);
      var h := |SchemePart(defaultPort)|;
      && h + |host| <= |r| - |url|
      && r[h..h + |host|] == host
      && r[|r| - |url|..] == url
      && (port == defaultPort ==> |r| == h + |host| + |url|)
      && (port != defaultPort ==> r[h + |host|..|r| - |url|] == ":" + Decimal.IntToString(port))
  {
    ConcatSlices(SchemePart(defaultPort), host, PortSegment(port, defaultPort), url);
  }

  /** Recording is idempotent: a recorded URL is absolute and is recorded again as it is. */
  lemma CanonicalUrlIdempotent(url: string, host: string, port: int, defaultPort: int,
                               host': string, port': int, defaultPort': int)
    ensures var r := CanonicalUrl(url, host, port, defaultPort);
      CanonicalUrl(r, host', port', defaultPort') == r
  {
  }

  /** For a relative `url`, the recorded URL determines the port: two ports give the same
      URL only when they are equal. */
  lemma CanonicalUrlPortInjective(url: string, host: string, port1: int, port2: int, defaultPort: int)
    requires !IsAbsolute(url)
    ensures CanonicalUrl(url, host, port1, defaultPort) == CanonicalUrl(url, host, port2, defaultPort)
            <==> port1 == port2
  {
    var p := SchemePart(defaultPort);
    var seg1 := PortSegment(port1, defaultPort);
    var seg2 := PortSegment(port2, defaultPort);
    if CanonicalUrl(url, host, port1, defaultPort) == CanonicalUrl(url, host, port2, defaultPort) {
      assert seg1 == seg2 by {
        assert p + (host + seg1 + url) == p + (host + seg2 + url);
        ConcatSlices(p, host, seg1, url);
        ConcatSlices(p, host, seg2, url);
      }
      PortSegmentInjective(port1, port2, defaultPort);
    }
  }

  /** Two examples: the default HTTPS port is left out, another port is kept. */
  lemma CanonicalUrlExamples()
    ensures CanonicalUrl("/a", "example.com", 443, 443) == "https://example.com/a"
    ensures CanonicalUrl("/a", "example.com", 8443, 443) == "https://example.com:8443/a"
  {
    assert !IsAbsolute("/a");
    assert PortSegment(8443, 443) == ":8443" by {
      assert Decimal.NatToString(8443) == "8443" by {
        assert Decimal.NatToString(8) == "8";
        assert Decimal.NatToString(84) == "84";
        assert Decimal.NatToString(844) == "844";
      }
    }
    assert PortSegment(443, 443) == "";
    assert SchemePart(443) == "https://";
  }
}
